=== FILE: README.md ===
# cloudcups print broker — a Dafny model

cloudcups is a small local print-job broker. An HTTP server takes an upload and
a JSON options record and hands the job to CUPS. It tries the native `cups`
binding first and falls back to the `lp` command, reading the job ID back from
`lp`'s English or Chinese confirmation. Printers are listed the same way, with
`lpstat -a` as the fallback. The server also serves the built frontend and
shows the date-named log files the logger writes.

This project models the deterministic string and sequence logic of that code
as pure Dafny functions and proves what the code promises about it. The
outside world comes in as inputs:

- the native binding is an optional function that returns or throws;
- each subprocess is the standard output it produced, or the exception from spawning it;
- `JSON.parse`, `existsSync`, `readdir`, `stat`, `readFile`, `Bun.write` and `appendFile` are oracles;
- timestamps and `Date.now()` are plain inputs.

Modules, one per source file plus one for the JavaScript runtime pieces:

- `js_text.dfy` (`JsText`): thrown values (`err.message || String(err)`), the `\s` class, and `split`/`join` with a one-character separator. Also `filter`, `trim`, `String(n)` for integers, ASCII lower-casing and `path.join`.
- `cups_manager.dfy` (`CupsManager`): `getPrinters` and `printFile`. Both paths share one translation table (`Ticket`), then spell it as the native option object or as the `lp` argument vector. The two job-ID regular expressions are modelled as leftmost-match searches.
- `log_routes.dfy` (`LogRoutes`): the `.log` listing, sorted descending, and the last-1000-lines file view.
- `logger.dfy` (`Logger`): levels, the threshold, level names, the entry layout, `always`, and the log file name.
- `server.dfy` (`Server`): the printer route, the four-step upload gate, the temp-file cleanup decision, and the static-file search with its `index.html` fallback.

Points where the code's behaviour is easy to misread:

- `getPrinters` ignores `lpstat`'s exit status: whatever it printed is parsed, and only a failure to spawn it propagates.
- The fallback printer name is the text before the first space character (`' '`); a tab stays inside the name.
- The English pattern needs exactly one space after `request id is`. The Chinese pattern allows any run of `\s`.
- When `request id is` occurs anywhere in the output, only the English pattern is tried. If it does not match, the result is an error even if a valid Chinese confirmation is also present.
- An exception with neither a message nor a string form gives `{error: ""}`. The upload handler treats that as success (`!result.error`) and schedules the delayed cleanup.

## Model

| member | source | states |
|---|---|---|
| `JsText.ErrorText` | backend/cupsManager.ts:108-111 | a caught exception is reported by its message, or by its string form when the message is empty |
| `JsText.Split` | backend/logRoutes.ts:36 | `split('\n')` yields at least one piece, no piece contains the separator, and joining the pieces with it gives the input back |
| `JsText.SplitJoin` | backend/logRoutes.ts:36-43 | splitting a join recovers the parts when no part contains the separator |
| `JsText.FirstField` | backend/cupsManager.ts:36 | `line.split(' ')[0]` is the prefix before the first separator: a prefix of the line without the separator, followed by it unless the line ends |
| `JsText.Filter` | backend/cupsManager.ts:37 | `filter` keeps exactly the passing elements, each with its multiplicity, and nothing else |
| `JsText.FilterAppend` | backend/cupsManager.ts:34-37 | filtering distributes over concatenation, so the kept lines stay in line order |
| `JsText.FilterKeepsAll` | backend/logRoutes.ts:36 | a filter that every element passes changes nothing |
| `JsText.TrimStart` | backend/logger.ts:64 | the leading whitespace run is removed and nothing else |
| `JsText.TrimEnd` | backend/logger.ts:64 | the trailing whitespace run is removed and nothing else |
| `JsText.NatText` | backend/cupsManager.ts:71 | `String(n)` of a natural number is a non-empty digit string without a leading zero |
| `JsText.NatTextValue` | backend/cupsManager.ts:71 | the decimal text of `n` has the value `n` |
| `JsText.NumberTextRoundTrip` | backend/cupsManager.ts:71 | `String(copies)` reads back as `copies`, negative numbers included |
| `JsText.IndexOfAfter` | backend/logger.ts:19-57 | a search for a character skips a leading part that lacks it; both `split('T')[0]` (line 19) and the entry read-back (line 57) rest on it |
| `JsText.PathJoin` | backend/logger.ts:19 | `path.join(dir, name)` is the name alone for an empty directory, `dir/name` when the directory lacks a trailing `/`, and `dir` + `name` when it has one |
| `JsText.JoinAppend` | backend/logRoutes.ts:43 | joining two non-empty lists of parts is joining each with one separator between |
| `JsText.SplitAround` | backend/logRoutes.ts:36 | splitting at a separator between two texts splits each text on its own; no piece runs across it |
| `JsText.LowerAscii` | backend/server-production.ts:47 | ASCII letters are lower-cased position by position and every other character is kept |
| `CupsManager.LpstatPrinters` | backend/cupsManager.ts:34-37 | every printer name from `lpstat -a` is a printer name: non-empty, with no space or newline; there are at most as many as lines |
| `CupsManager.LpstatRoundTrip` | backend/cupsManager.ts:31-37 | parsing newline-terminated lines `name rest…` returns exactly the names, in line order |
| `CupsManager.FirstWordOfLine` | backend/cupsManager.ts:36 | the first word of `name + " " + rest` is `name` |
| `CupsManager.GetPrinters` | backend/cupsManager.ts:14-41 | a native listing that returns is the answer unchanged; a missing or throwing binding falls through to `lpstat`, whose spawn failure propagates |
| `CupsManager.NativeListingIgnoresLpstat` | backend/cupsManager.ts:15-21 | once the native listing succeeds, `lpstat` has no influence on the result |
| `CupsManager.Ticket` | backend/cupsManager.ts:50-57 | duplex only when `duplex === true`, colour only when `color === true`, orientation 4 only for landscape and 3 otherwise; a page range only when non-empty |
| `CupsManager.NativeOptions` | backend/cupsManager.ts:50-57 | the native option object has the five fixed keys, plus `page-ranges` exactly when a range is sent |
| `CupsManager.NativeOptionsRoundTrip` | backend/cupsManager.ts:50-57 | the native option object carries every setting of the job |
| `CupsManager.LpArgs` | backend/cupsManager.ts:69-78 | the `lp` arguments are `-d printer -n copies`, then the four `-o` options in fixed order, then `-P range` when there is one, then the file; 13 or 15 in all |
| `CupsManager.LpArgsRoundTrip` | backend/cupsManager.ts:69-78 | the `lp` argument vector decodes back to exactly the job settings and the file path |
| `CupsManager.DropPrefixOf` | backend/cupsManager.ts:72-75 | stripping `key=` from `key=value` gives `value` |
| `CupsManager.BothPathsAgree` | backend/cupsManager.ts:50-77 | the native call and the `lp` call submit the same settings for the same options |
| `CupsManager.WordEnd` | backend/cupsManager.ts:94 | `[^\s]+` is greedy: the run ends at the first whitespace or at the end |
| `CupsManager.SpaceEnd` | backend/cupsManager.ts:96 | `\s+` is greedy: the run ends at the first non-whitespace or at the end |
| `CupsManager.CaptureStart` | backend/cupsManager.ts:94-96 | a match's capture starts on a non-whitespace character inside the output |
| `CupsManager.FirstMatch` | backend/cupsManager.ts:94-96 | the search reports the leftmost match position, or reports that there is none |
| `CupsManager.MatchGroup` | backend/cupsManager.ts:94-96 | `match(…)?.[1]` is the capture at the leftmost match, a non-empty whitespace-free word; it is absent exactly when nothing matches |
| `CupsManager.ExtractJobId` | backend/cupsManager.ts:88-97 | the English pattern is used when `request id is` occurs; the Chinese one only when it does not; neither marker means no ID |
| `CupsManager.OutputResult` | backend/cupsManager.ts:99-107 | a found ID becomes `{jobId}`; otherwise `{error: output}`, or `Unknown print error` for empty output, so this error is never empty |
| `CupsManager.PrintFile` | backend/cupsManager.ts:43-113 | a successful native print returns its job ID; otherwise `lp` runs with the translated arguments, and a spawn exception becomes `{error}` |
| `CupsManager.EnglishMarkerMasksChinese` | backend/cupsManager.ts:93-97 | an English marker without a following word gives `{error: output}` even when a Chinese confirmation is present |
| `CupsManager.WordEndAt` | backend/cupsManager.ts:94 | a word followed by whitespace or the end is exactly the greedy run |
| `CupsManager.SpaceEndAt` | backend/cupsManager.ts:96 | a whitespace run followed by a non-space or the end is exactly the greedy run |
| `CupsManager.EnglishConfirmation` | backend/cupsManager.ts:89-94 | `request id is XYZ123` followed by whitespace or nothing yields `XYZ123` exactly |
| `CupsManager.ChineseConfirmation` | backend/cupsManager.ts:90-96 | `请求 ID 为 <id> (1 个文件)` yields `<id>`, skipping the spaces and leaving the annotation out |
| `CupsManager.PrintFileOutcome` | backend/cupsManager.ts:99-111 | an ID not from the binding is a non-empty whitespace-free word of `lp` output; an empty error only comes from an exception with no message and no string form |
| `LogRoutes.LexLeReflexive` | backend/logRoutes.ts:12 | every name compares equal to itself |
| `LogRoutes.LexLeTotal` | backend/logRoutes.ts:12 | any two names are comparable |
| `LogRoutes.LexLeAntisymmetric` | backend/logRoutes.ts:12 | names that compare both ways are equal |
| `LogRoutes.LexLeTransitive` | backend/logRoutes.ts:12 | the name order is transitive |
| `LogRoutes.InsertDescending` | backend/logRoutes.ts:12 | inserting into a descending list keeps it descending and adds exactly that name |
| `LogRoutes.SortDescending` | backend/logRoutes.ts:12 | the sort returns a permutation of its input in which every name compares at or after its successor |
| `LogRoutes.DescendingPairwise` | backend/logRoutes.ts:12 | in a descending list every earlier name is at or after every later one |
| `LogRoutes.SortedIsUnique` | backend/logRoutes.ts:12 | two descending lists of the same names are equal, so the listing order does not depend on the sort algorithm |
| `LogRoutes.LogFileNames` | backend/logRoutes.ts:10-12 | the listing holds exactly the directory entries ending in `.log`, with their multiplicity, in descending order |
| `LogRoutes.StatAll` | backend/logRoutes.ts:14-25 | every listed file is `stat`ed under `logs/` and reported in listing order; one failing `stat` fails them all |
| `LogRoutes.ListLogs` | backend/logRoutes.ts:6-30 | the listing succeeds exactly when the directory and every `stat` can be read; otherwise it is the fixed directory error |
| `LogRoutes.LoggerFileIsListed` | backend/logger.ts:19 | the logger's file is always among the listed names when it is in the directory |
| `LogRoutes.NonEmptyLines` | backend/logRoutes.ts:36 | the kept lines are non-empty and newline-free; `TerminatedLines`, `JoinedLines` and `NonEmptyLinesAppend` show which lines they are |
| `LogRoutes.Last` | backend/logRoutes.ts:39 | `slice(-1000)` is the suffix of length `min(1000, n)` |
| `LogRoutes.ViewLog` | backend/logRoutes.ts:32-49 | `totalLines` counts the non-empty lines, not log entries; `returnedLines` is `min(1000, totalLines)`; the content joins the last `returnedLines` lines; a failed read is the fixed file error |
| `LogRoutes.ViewContentLines` | backend/logRoutes.ts:36-45 | the content splits back into exactly the returned lines, none empty; with at most 1000 lines these are all of them |
| `LogRoutes.JoinedLines` | backend/logRoutes.ts:43 | joining non-empty newline-free lines with `\n` and splitting again loses and adds nothing |
| `LogRoutes.TerminatedLines` | backend/logRoutes.ts:36 | a text of non-empty newline-free lines, each ended by a newline, splits into exactly those lines, in order |
| `LogRoutes.EmptyPiecesDropped` | backend/logRoutes.ts:36 | a final newline adds no line |
| `LogRoutes.LinesAround` | backend/logRoutes.ts:36 | the lines on either side of one newline are counted separately |
| `LogRoutes.NonEmptyLinesAppend` | backend/logRoutes.ts:36 | text appended after a newline-ended file adds exactly its own non-empty lines, so an appended entry adds one line to `totalLines` per non-empty line of its text: several for a non-empty object or array argument (`JSON.stringify(arg, null, 2)`) or multi-line `lp` output; a trailing newline adds none |
| `LogRoutes.SingleLineEntry` | backend/logger.ts:53-57 | an entry whose line holds no newline is exactly one line of the view |
| `LogRoutes.ViewOfLines` | backend/logRoutes.ts:32-46 | viewing a text of `n` non-empty newline-free lines, each ended by a newline, reports `n` lines and returns the last `min(1000, n)` of them joined with `\n` |
| `Logger.DatePart` | backend/logger.ts:19 | the date part is a prefix of the timestamp without `T` |
| `Logger.DatePartOfIso` | backend/logger.ts:19 | an ISO timestamp `<date>T<time>` gives its date |
| `Logger.LogFileName` | backend/logger.ts:19 | the log file is `<logDir>/app-<date>.log` for a directory without a trailing `/`, and in every case ends in `app-<date>.log` |
| `Logger.NewLogger` | backend/logger.ts:17-22 | a new logger keeps its directory and threshold and writes to the file named after its start date |
| `Logger.DefaultLogger` | backend/logger.ts:98 | the global logger has threshold INFO and writes to `logs/app-<date>.log` |
| `Logger.LevelNames` | backend/logger.ts:5-46 | the enum (lines 5-10) orders DEBUG < INFO < WARN < ERROR; `getLevelString` (lines 38-46) names them: each named level's name reads back as that level, and every other number is `UNKNOWN` |
| `Logger.ThresholdMonotone` | backend/logger.ts:49 | a logger that keeps a level keeps every higher one; the default logger drops DEBUG and keeps INFO, WARN and ERROR |
| `Logger.ArgsText` | backend/logger.ts:53-55 | the argument suffix is empty exactly when there are no arguments, else a space and the arguments joined by spaces |
| `Logger.Entry` | backend/logger.ts:57 | every file entry ends with a newline |
| `Logger.WriteLog` | backend/logger.ts:48-66 | nothing happens below the threshold; otherwise the entry is appended to the log file, or on failure an error and the trimmed entry go to the console |
| `Logger.NoDailyRollover` | backend/logger.ts:19-60 | the log file is chosen once, from the start date; an entry written at any later time still goes to `logs/app-<start date>.log` |
| `Logger.Always` | backend/logger.ts:85-94 | an INFO-tagged console line comes first, then the INFO `writeLog`, which the threshold can still suppress |
| `Logger.BracketedOf` | backend/logger.ts:57 | a bracketed field without `]` is read back intact |
| `Logger.ParseLineOf` | backend/logger.ts:57 | the line layout `[ts] [LEVEL] text` can be read back into its three fields |
| `Logger.ParseEntryLine` | backend/logger.ts:57 | an entry line reads back as timestamp, tag, and message with its arguments |
| `Logger.EntryRoundTrip` | backend/logger.ts:57 | a file entry reads back as its timestamp, its level name, and the message with its arguments |
| `Logger.AlwaysConsoleLine` | backend/logger.ts:85-94 | the console line of `always` is the INFO entry layout at its own timestamp, without the newline; when both clock reads agree and the append succeeds, it is the appended entry minus its newline |
| `Server.PrintersRoute` | backend/server-production.ts:16-26 | the route returns the discovered names, or the fixed error when discovery throws |
| `Server.PrintersRouteFails` | backend/server-production.ts:16-26 | the route fails only when the binding did not deliver and `lpstat` could not be spawned |
| `Server.LowerSuffix` | backend/server-production.ts:47 | for a lower-case pattern, testing the lower-cased name equals comparing letters without case |
| `Server.AllowedFileNameMeaning` | backend/server-production.ts:47 | a file name is accepted exactly when it ends in `.` plus pdf, doc, docx, png, jpg or jpeg, in any case |
| `Server.Validate` | backend/server-production.ts:31-50 | each of the four errors is answered exactly when its check is the first to fail, in order: file, options, JSON, extension |
| `Server.TempPath` | backend/server-production.ts:52 | the temp file lives under `/tmp/` and ends with `_` and the upload's name |
| `Server.HandlePrint` | backend/server-production.ts:27-100 | rejections come back without cleanup; a failed save propagates with nothing to clean; the adapter's result is returned unchanged, with a 5000 ms delayed cleanup when `!result.error` and an immediate one otherwise; an adapter exception cleans up at once and is rethrown |
| `Server.RejectedRequestTouchesNothing` | backend/server-production.ts:31-57 | a rejected request's reply does not depend on what writing or printing would do |
| `Server.HandlerWithAdapter` | backend/server-production.ts:56-98 | behind the real adapter the exception branch is dead, and a job ID always gets the delayed cleanup |
| `Server.StaticCandidates` | backend/server-production.ts:106-111 | the four roots are tried in their fixed order with the requested path appended |
| `Server.FirstExisting` | backend/server-production.ts:113-121 | the first existing candidate is served, all earlier ones do not exist; nothing is found exactly when none exists |
| `Server.ServeStatic` | backend/server-production.ts:101-135 | a served file exists; the fallback answer is 404 with `File not found` |
| `Server.FirstExistingAppend` | backend/server-production.ts:113-132 | searching two candidate lists in turn is searching their concatenation |
| `Server.ServeStaticIsOneSearch` | backend/server-production.ts:103-134 | the route serves the first existing of the eight candidates (requested ones first); it answers 404 exactly when none exists |
| `Server.RootFallbackRepeats` | backend/server-production.ts:103-124 | for `/` the fallback candidates are the same four `index.html` paths as the first search |

## Left out

- Process spawning and stream reading (`Bun.spawn`, `new Response(stdout).text()`): a subprocess is its captured output or the spawn exception.
- The `node-cups` module and its loading at start-up: a binding operation is an optional oracle. The type of what it returns is not checked; a native job ID arrives already converted by `String`.
- The HTTP framework: Elysia routing, CORS headers, `formData()` decoding, `app.listen`, and the start-up `log.always` call.
- File-system effects (`Bun.write`, `existsSync`, `readdir`, `stat`, `readFile`, `appendFile`, `mkdir`): each is an oracle or a flag. `existsSync` never throws, so the static route's `catch { continue }` is not modelled.
- `Logger.init` creating the log directory: file-system side effect only.
- `setTimeout`: only the delayed-or-immediate cleanup decision and the 5000 ms delay are recorded.
- The cleanup write's own failure: it is caught and logged, and the reply is decided before it, so the model records only the cleanup request.
- `JSON.parse`: an oracle from text to an optional `PrintOptions`. JSON that parses but is not shaped like `PrintOptions` (for example a string `duplex`) is not modelled. Argument rendering by `String` / `JSON.stringify` in the logger is also abstract: arguments arrive as strings.
- Timestamps and `Date.now()`: plain inputs. The two timestamps `always` reads are separate inputs.
- `LogRoutes.LexLeTotal`: names are ordered by code point, not by the locale rules of `localeCompare`.
- `JsText.PathJoin`: `path.join` normalisation of `.`, `..` and doubled separators is not modelled.
- `JsText.NumberText`: decimal text matches `String` only for integers of magnitude at most 2^53 − 1 (`Number.MAX_SAFE_INTEGER`). Larger copy counts are not exact JavaScript numbers, and `String` prints their rounded digits; the model's `copies` is an unbounded integer. Fractional numbers, exponent forms and `NaN` are not modelled.
- `readFile`'s UTF-8 decoding: file content arrives as a string.
- `Logger.WriteLog`: the error object passed to `console.error` next to the failure message is not modelled.
- The `debug`/`info`/`warn`/`error` methods and the `log` wrapper object are `Logger.WriteLog` at a fixed level, so they have no members of their own.
- The `log.*` calls inside `getPrinters`, `printFile` and the route handlers (backend/cupsManager.ts:17-38 and 45-109, backend/server-production.ts:18-95): `writeLog` is asynchronous and never throws into its caller, so no result depends on them.
- backend/server.ts is not part of this model: its upload handler repeats the one modelled here, and its static route is a single file response.
- frontend/src/utils/logger.ts and frontend/src/stores/print.js are not part of this model: the first repeats the level gate, the second holds store setters.

=== FILE: cups_manager.dfy ===
/**
 * The print adapter (backend/cupsManager.ts): printer discovery and print
 * submission. Each operation first tries the native CUPS binding and, when
 * the binding is missing or throws, falls back to the `lpstat -a` / `lp`
 * command line. The binding and the subprocesses are oracles: the binding
 * is an optional function that returns or throws, and a subprocess is the
 * standard output it produces (or the exception spawning it raised).
 */
module CupsManager {
  import opened JsText

  datatype Orientation = Portrait | Landscape

  /** The options record the client sends; `duplex`, `color` and
      `pageRange` may be absent. */
  datatype PrintOptions = PrintOptions(
    printer: string,
    copies: int,
    duplex: Option<bool>,
    color: Option<bool>,
    media: string,
    orientation: Orientation,
    pageRange: Option<string>)

  /** The object `printFile` resolves to: `{jobId}` or `{error}`, never both
      and never neither. */
  datatype PrintResult = JobId(id: string) | Error(message: string)

  /** A native binding call that may be missing (None) and otherwise
      returns or throws. */
  type NativeNames = Option<Call<seq<string>>>

  /** A value of the option object handed to the native `printFile`. */
  datatype NativeValue = NInt(i: int) | NStr(s: string)

  type NativePrint = Option<(string, string, map<string, NativeValue>) -> Call<string>>

  // ---------------------------------------------------------------------
  // Printer discovery
  // ---------------------------------------------------------------------

  /** The first space-separated word of every line. */
  function FirstWords(lines: seq<string>): (words: seq<string>)
    ensures |words| == |lines|
    ensures forall i :: 0 <= i < |lines| ==> words[i] == FirstField(lines[i], ' ')
  {
    seq(|lines|, i requires 0 <= i < |lines| => FirstField(lines[i], ' '))
  }

  /** What a printer name from `lpstat -a` can be: a non-empty word. */
  predicate IsPrinterName(name: string) {
    name != "" && ' ' !in name && '\n' !in name
  }

  /** Printer names in `lpstat -a` output: the text before the first space
      of each newline-separated line, in line order, empty names dropped. */
  function LpstatPrinters(output: string): (names: seq<string>)
    ensures |names| <= |Split(output, '\n')|
    ensures forall i :: 0 <= i < |names| ==> IsPrinterName(names[i])
  {
    var lines := Split(output, '\n');
    var words := FirstWords(lines);
    WordsAreClean(lines);
    var names := Filter(words, NonEmpty);
    assert forall i :: 0 <= i < |names| ==> names[i] in multiset(words) by {
      forall i | 0 <= i < |names|
        ensures names[i] in multiset(words)
      {
        assert multiset(names)[names[i]] > 0;
      }
    }
    names
  }

  /** The first word of a newline-free line holds neither a space nor a newline. */
  lemma WordsAreClean(lines: seq<string>)
    requires forall i :: 0 <= i < |lines| ==> '\n' !in lines[i]
    ensures forall i :: 0 <= i < |lines| ==>
              ' ' !in FirstWords(lines)[i] && '\n' !in FirstWords(lines)[i]
  {
    var words := FirstWords(lines);
    forall i | 0 <= i < |lines|
      ensures ' ' !in words[i] && '\n' !in words[i]
    {
      assert words[i] == lines[i][..|words[i]|];
    }
  }

  /** `getPrinters()`: the native list when the binding has
      `getPrinterNames` and the call returns; otherwise the parsed output of
      `lpstat -a`. An exception from spawning `lpstat` propagates. */
  function GetPrinters(native: NativeNames, lpstat: Call<string>): (r: Call<seq<string>>)
    ensures native.Some? && native.value.Returned? ==> r == native.value
    ensures !(native.Some? && native.value.Returned?) ==>
              (lpstat.Threw? ==> r == Threw(lpstat.error))
              && (lpstat.Returned? ==> r == Returned(LpstatPrinters(lpstat.value)))
  {
    if native.Some? && native.value.Returned? then native.value
    else match lpstat
      case Threw(e) => Threw(e)
      case Returned(output) => Returned(LpstatPrinters(output))
  }

  /** A successful native listing is returned as is: `lpstat` is never consulted. */
  lemma NativeListingIgnoresLpstat(names: seq<string>, a: Call<string>, b: Call<string>)
    ensures GetPrinters(Some(Returned(names)), a) == GetPrinters(Some(Returned(names)), b) == Returned(names)
  {
  }

  /** The lines `lpstat -a` prints: a printer name, a space, the rest. */
  function LpstatLines(names: seq<string>, rests: seq<string>): (lines: seq<string>)
    requires |names| == |rests|
    ensures |lines| == |names|
  {
    seq(|names|, i requires 0 <= i < |names| => names[i] + " " + rests[i])
  }

  lemma FirstWordOfLine(name: string, rest: string)
    requires ' ' !in name
    ensures FirstField(name + " " + rest, ' ') == name
  {
    var s := name + " " + rest;
    var f := FirstField(s, ' ');
    assert s[|name|] == ' ';
    assert s[..|name|] == name;
  }

  /** Parsing what `lpstat -a` prints (one newline-terminated line per
      printer) recovers exactly the printer names, in order. */
  lemma {:induction false} LpstatRoundTrip(names: seq<string>, rests: seq<string>)
    requires |names| == |rests|
    requires forall i :: 0 <= i < |names| ==> IsPrinterName(names[i]) && '\n' !in rests[i]
    ensures LpstatPrinters(Join(LpstatLines(names, rests) + [""], "\n")) == names
  {
    var lines := LpstatLines(names, rests) + [""];
    forall i | 0 <= i < |lines|
      ensures '\n' !in lines[i]
    {
      if i < |names| {
        assert lines[i] == names[i] + " " + rests[i];
      }
    }
    SplitJoin(lines, '\n');
    assert Split(Join(lines, "\n"), '\n') == lines;
    var words := FirstWords(lines);
    forall i | 0 <= i < |names|
      ensures words[i] == names[i]
    {
      FirstWordOfLine(names[i], rests[i]);
    }
    assert FirstField("", ' ') == "";
    assert words == names + [""];
    FilterAppend(names, [""], NonEmpty);
    FilterKeepsAll(names, NonEmpty);
  }

  // ---------------------------------------------------------------------
  // Option translation
  // ---------------------------------------------------------------------

  /** The job settings in CUPS vocabulary. Both submission paths send
      exactly these, only spelled differently. */
  datatype JobTicket = JobTicket(
    printer: string,
    copies: int,
    media: string,
    sides: string,
    colorModel: string,
    orientationRequested: int,
    pageRanges: Option<string>)

  /** `options.pageRange` is truthy: present and not the empty string. */
  predicate HasPageRange(o: PrintOptions) {
    o.pageRange.Some? && o.pageRange.value != ""
  }

  /** The translation table shared by the native and the command-line path. */
  function Ticket(o: PrintOptions): (t: JobTicket)
    ensures t.printer == o.printer && t.copies == o.copies && t.media == o.media
    ensures t.sides in {"two-sided-long-edge", "one-sided"}
    ensures t.sides == "two-sided-long-edge" <==> o.duplex == Some(true)
    ensures t.colorModel in {"Color", "Gray"}
    ensures t.colorModel == "Color" <==> o.color == Some(true)
    ensures t.orientationRequested in {3, 4}
    ensures t.orientationRequested == 4 <==> o.orientation == Landscape
    ensures t.pageRanges.Some? <==> HasPageRange(o)
    ensures t.pageRanges.Some? ==> t.pageRanges == o.pageRange && t.pageRanges.value != ""
  {
    JobTicket(
      o.printer,
      o.copies,
      o.media,
      if o.duplex == Some(true) then "two-sided-long-edge" else "one-sided",
      if o.color == Some(true) then "Color" else "Gray",
      if o.orientation == Landscape then 4 else 3,
      if HasPageRange(o) then o.pageRange else None)
  }

  /** The option object given to the native `printFile`. */
  function NativeOptions(t: JobTicket): (m: map<string, NativeValue>)
    ensures m.Keys == {"copies", "sides", "ColorModel", "media", "orientation-requested"}
                      + (if t.pageRanges.Some? then {"page-ranges"} else {})
  {
    var base := map[
      "copies" := NInt(t.copies),
      "sides" := NStr(t.sides),
      "ColorModel" := NStr(t.colorModel),
      "media" := NStr(t.media),
      "orientation-requested" := NInt(t.orientationRequested)];
    if t.pageRanges.Some? then base["page-ranges" := NStr(t.pageRanges.value)] else base
  }

  /** Reads a ticket back out of a native option object. */
  function NativeTicket(printer: string, m: map<string, NativeValue>): Option<JobTicket> {
    if && "copies" in m && m["copies"].NInt?
       && "sides" in m && m["sides"].NStr?
       && "ColorModel" in m && m["ColorModel"].NStr?
       && "media" in m && m["media"].NStr?
       && "orientation-requested" in m && m["orientation-requested"].NInt?
       && ("page-ranges" in m ==> m["page-ranges"].NStr?)
    then
      Some(JobTicket(
        printer, m["copies"].i, m["media"].s, m["sides"].s, m["ColorModel"].s,
        m["orientation-requested"].i,
        if "page-ranges" in m then Some(m["page-ranges"].s) else None))
    else None
  }

  /** The native option object carries the whole ticket. */
  lemma NativeOptionsRoundTrip(t: JobTicket)
    ensures NativeTicket(t.printer, NativeOptions(t)) == Some(t)
  {
    var m := NativeOptions(t);
    assert "page-ranges" in m <==> t.pageRanges.Some?;
  }

  /** The argument vector of `lp` (the program name excluded). */
  function LpArgs(t: JobTicket, filePath: string): (args: seq<string>)
    ensures |args| == if t.pageRanges.Some? then 15 else 13
    ensures args[..4] == ["-d", t.printer, "-n", NumberText(t.copies)]
    ensures args[4] == args[6] == args[8] == args[10] == "-o"
    ensures args[5] == "media=" + t.media && args[7] == "sides=" + t.sides
    ensures args[9] == "ColorModel=" + t.colorModel
    ensures args[11] == "orientation-requested=" + NumberText(t.orientationRequested)
    ensures t.pageRanges.Some? ==> args[12..14] == ["-P", t.pageRanges.value]
    ensures args[|args| - 1] == filePath
  {
    var options := [
      "-d", t.printer,
      "-n", NumberText(t.copies),
      "-o", "media=" + t.media,
      "-o", "sides=" + t.sides,
      "-o", "ColorModel=" + t.colorModel,
      "-o", "orientation-requested=" + NumberText(t.orientationRequested)];
    var range := if t.pageRanges.Some? then ["-P", t.pageRanges.value] else [];
    options + range + [filePath]
  }

  /** An `lp` invocation read back from its argument vector. */
  datatype LpRequest = LpRequest(ticket: JobTicket, filePath: string)

  function DropPrefix(s: string, prefix: string): Option<string> {
    if StartsWith(s, prefix) then Some(s[|prefix|..]) else None
  }

  /** Reads an `lp` argument vector of the shape `LpArgs` produces. */
  function DecodeLpArgs(args: seq<string>): Option<LpRequest> {
    if && (|args| == 13 || |args| == 15)
       && args[0] == "-d" && args[2] == "-n"
       && args[4] == "-o" && args[6] == "-o" && args[8] == "-o" && args[10] == "-o"
       && (|args| == 15 ==> args[12] == "-P")
    then
      var copies := ParseNumberText(args[3]);
      var media := DropPrefix(args[5], "media=");
      var sides := DropPrefix(args[7], "sides=");
      var color := DropPrefix(args[9], "ColorModel=");
      var orientation := DropPrefix(args[11], "orientation-requested=");
      if copies.Some? && media.Some? && sides.Some? && color.Some? && orientation.Some?
         && ParseNumberText(orientation.value).Some?
      then
        var range := if |args| == 15 then Some(args[13]) else None;
        Some(LpRequest(
          JobTicket(args[1], copies.value, media.value, sides.value, color.value,
                    ParseNumberText(orientation.value).value, range),
          args[|args| - 1]))
      else None
    else None
  }

  lemma DropPrefixOf(prefix: string, rest: string)
    ensures DropPrefix(prefix + rest, prefix) == Some(rest)
  {
    assert (prefix + rest)[..|prefix|] == prefix;
    assert (prefix + rest)[|prefix|..] == rest;
  }

  /** The `lp` argument vector carries the whole ticket and the file path. */
  lemma LpArgsRoundTrip(t: JobTicket, filePath: string)
    ensures DecodeLpArgs(LpArgs(t, filePath)) == Some(LpRequest(t, filePath))
  {
    var args := LpArgs(t, filePath);
    assert args[3] == NumberText(t.copies);
    NumberTextRoundTrip(t.copies);
    NumberTextRoundTrip(t.orientationRequested);
    DropPrefixOf("media=", t.media);
    DropPrefixOf("sides=", t.sides);
    DropPrefixOf("ColorModel=", t.colorModel);
    DropPrefixOf("orientation-requested=", NumberText(t.orientationRequested));
    if t.pageRanges.Some? {
      assert args[12] == "-P" && args[13] == t.pageRanges.value;
    }
  }

  /** Both paths submit the same settings: the native option object and the
      `lp` arguments decode to one and the same ticket. */
  lemma BothPathsAgree(o: PrintOptions, filePath: string)
    ensures NativeTicket(o.printer, NativeOptions(Ticket(o))) == Some(Ticket(o))
    ensures DecodeLpArgs(LpArgs(Ticket(o), filePath)) == Some(LpRequest(Ticket(o), filePath))
  {
    NativeOptionsRoundTrip(Ticket(o));
    LpArgsRoundTrip(Ticket(o), filePath);
  }

  // ---------------------------------------------------------------------
  // Job-ID extraction from `lp` output
  // ---------------------------------------------------------------------

  const EnglishMarker := "request id is"
  const ChineseMarker := "请求 ID 为"

  /** The end of the maximal run of non-space characters starting at `i`. */
  function WordEnd(s: string, i: nat): (k: nat)
    requires i <= |s|
    ensures i <= k <= |s|
    ensures forall j :: i <= j < k ==> !IsSpace(s[j])
    ensures k < |s| ==> IsSpace(s[k])
    decreases |s| - i
  {
    if i == |s| || IsSpace(s[i]) then i else WordEnd(s, i + 1)
  }

  /** The end of the maximal run of space characters starting at `i`. */
  function SpaceEnd(s: string, i: nat): (k: nat)
    requires i <= |s|
    ensures i <= k <= |s|
    ensures forall j :: i <= j < k ==> IsSpace(s[j])
    ensures k < |s| ==> !IsSpace(s[k])
    decreases |s| - i
  {
    if i == |s| || !IsSpace(s[i]) then i else SpaceEnd(s, i + 1)
  }

  /** The two regular expressions `printFile` applies to `lp` output. */
  datatype Pattern =
    | English  // /request id is ([^\s]+)/
    | Chinese  // /请求 ID 为\s+([^\s]+)/

  /** `p` has a match starting at index `i` of `s`. The English pattern needs
      the marker, one space and a non-space character; the Chinese one needs
      the marker, at least one space and a non-space character after the
      spaces. */
  predicate MatchAt(p: Pattern, s: string, i: int) {
    match p
    case English =>
      var j := i + |EnglishMarker| + 1;
      OccursAt(s, EnglishMarker + " ", i) && j < |s| && !IsSpace(s[j])
    case Chinese =>
      var j := i + |ChineseMarker|;
      OccursAt(s, ChineseMarker, i) && j < |s| && IsSpace(s[j]) && SpaceEnd(s, j) < |s|
  }

  /** Where the captured group of a match at `i` starts. */
  function CaptureStart(p: Pattern, s: string, i: int): (k: nat)
    requires MatchAt(p, s, i)
    ensures k < |s| && !IsSpace(s[k])
  {
    match p
    case English => i + |EnglishMarker| + 1
    case Chinese => SpaceEnd(s, i + |ChineseMarker|)
  }

  /** The group `([^\s]+)` captures at a match starting at `i`. */
  function Capture(p: Pattern, s: string, i: int): string
    requires MatchAt(p, s, i)
  {
    var k := CaptureStart(p, s, i);
    s[k..WordEnd(s, k)]
  }

  /** The least index at or after `from` where `p` matches: where the
      regular-expression search reports its leftmost match. */
  function FirstMatch(p: Pattern, s: string, from: nat): (r: Option<nat>)
    requires from <= |s|
    ensures r.Some? ==> from <= r.value && MatchAt(p, s, r.value)
    ensures r.Some? ==> forall j :: from <= j < r.value ==> !MatchAt(p, s, j)
    ensures r.None? ==> forall j :: from <= j ==> !MatchAt(p, s, j)
    decreases |s| - from
  {
    if from == |s| then None
    else if MatchAt(p, s, from) then Some(from)
    else FirstMatch(p, s, from + 1)
  }

  /** `i` is the leftmost match of `p` in `s`. */
  predicate Leftmost(p: Pattern, s: string, i: int) {
    MatchAt(p, s, i) && forall j :: 0 <= j < i ==> !MatchAt(p, s, j)
  }

  /** `output.match(pattern)?.[1]`: the group captured at the leftmost
      match, a maximal non-empty run of non-space characters. */
  function MatchGroup(p: Pattern, s: string): (r: Option<string>)
    ensures r.None? <==> forall i :: !MatchAt(p, s, i)
    ensures r.Some? ==> exists i :: Leftmost(p, s, i) && r.value == Capture(p, s, i)
    ensures r.Some? ==> r.value != "" && NoSpace(r.value)
  {
    var first := FirstMatch(p, s, 0);
    if first.None? then
      assert forall i :: i < 0 ==> !MatchAt(p, s, i);
      None
    else
      assert Leftmost(p, s, first.value);
      var k := CaptureStart(p, s, first.value);
      assert NoSpace(s[k..WordEnd(s, k)]);
      Some(Capture(p, s, first.value))
  }

  /** The job ID in `lp` output: the English pattern when the English marker
      occurs at all, the Chinese pattern only when it does not. */
  function ExtractJobId(output: string): (r: Option<string>)
    ensures Contains(output, EnglishMarker) ==> r == MatchGroup(English, output)
    ensures !Contains(output, EnglishMarker) && Contains(output, ChineseMarker) ==> r == MatchGroup(Chinese, output)
    ensures !Contains(output, EnglishMarker) && !Contains(output, ChineseMarker) ==> r.None?
    ensures r.Some? ==> r.value != "" && NoSpace(r.value)
  {
    if Contains(output, EnglishMarker) then MatchGroup(English, output)
    else if Contains(output, ChineseMarker) then MatchGroup(Chinese, output)
    else None
  }

  /** The result built from captured `lp` output. */
  function OutputResult(output: string): (r: PrintResult)
    ensures r.Error? ==> r.message == (if output == "" then "Unknown print error" else output)
    ensures r.Error? ==> r.message != ""
    ensures r.JobId? ==> ExtractJobId(output) == Some(r.id)
    ensures r.Error? ==> ExtractJobId(output).None?
  {
    match ExtractJobId(output)
    case Some(id) => JobId(id)
    case None => Error(if output == "" then "Unknown print error" else output)
  }

  /** `printFile(filePath, options)`. A native job ID is returned as its
      string; when the binding is missing or throws, `lp` runs with the
      translated arguments and its output is parsed; an exception from
      spawning `lp` becomes `{error: err.message || String(err)}`. */
  function PrintFile(filePath: string, o: PrintOptions, native: NativePrint,
                     lp: seq<string> -> Call<string>): (r: PrintResult)
    ensures !(native.Some? && native.value(o.printer, filePath, NativeOptions(Ticket(o))).Returned?) ==>
              match lp(LpArgs(Ticket(o), filePath))
              case Threw(e) => r == Error(ErrorText(e))
              case Returned(output) => r == OutputResult(output)
    ensures native.Some? && native.value(o.printer, filePath, NativeOptions(Ticket(o))).Returned? ==>
              r == JobId(native.value(o.printer, filePath, NativeOptions(Ticket(o))).value)
  {
    var t := Ticket(o);
    var viaNative := if native.Some? then Some(native.value(t.printer, filePath, NativeOptions(t))) else None;
    if viaNative.Some? && viaNative.value.Returned? then
      JobId(viaNative.value.value)
    else
      match lp(LpArgs(t, filePath))
      case Threw(e) => Error(ErrorText(e))
      case Returned(output) => OutputResult(output)
  }

  // ---------------------------------------------------------------------
  // Properties of the extraction
  // ---------------------------------------------------------------------

  lemma EnglishMarkerContained(s: string, i: int)
    requires MatchAt(English, s, i)
    ensures Contains(s, EnglishMarker)
  {
    assert s[i..i + |EnglishMarker|] == (s[i..i + |EnglishMarker| + 1])[..|EnglishMarker|];
    assert OccursAt(s, EnglishMarker, i);
  }

  /** When the English marker occurs but no non-space text follows
      `request id is `, the output is an error even if a well-formed Chinese
      confirmation is also present. */
  lemma EnglishMarkerMasksChinese(output: string)
    requires Contains(output, EnglishMarker)
    requires forall i :: !MatchAt(English, output, i)
    ensures ExtractJobId(output).None?
    ensures OutputResult(output) == Error(output)
  {
  }

  lemma WordEndAt(s: string, i: nat, e: nat)
    requires i <= e <= |s|
    requires forall m :: i <= m < e ==> !IsSpace(s[m])
    requires e == |s| || IsSpace(s[e])
    ensures WordEnd(s, i) == e
  {
  }

  lemma SpaceEndAt(s: string, i: nat, e: nat)
    requires i <= e <= |s|
    requires forall m :: i <= m < e ==> IsSpace(s[m])
    requires e == |s| || !IsSpace(s[e])
    ensures SpaceEnd(s, i) == e
  {
  }

  /** The English confirmation `request id is <id>` yields `<id>` exactly,
      whatever follows it after a space. */
  lemma EnglishConfirmation(id: string, tail: string)
    requires id != "" && NoSpace(id)
    requires tail == "" || IsSpace(tail[0])
    ensures ExtractJobId(EnglishMarker + " " + id + tail) == Some(id)
  {
    var s := EnglishMarker + " " + id + tail;
    var j := |EnglishMarker| + 1;
    assert s[0..j] == EnglishMarker + " ";
    assert MatchAt(English, s, 0);
    EnglishMarkerContained(s, 0);
    forall m | j <= m < j + |id|
      ensures !IsSpace(s[m])
    {
      assert s[m] == id[m - j];
    }
    WordEndAt(s, j, j + |id|);
    var k := WordEnd(s, j);
    assert s[j..k] == id;
  }

  lemma ChineseMarkerAt(s: string, i: int)
    requires MatchAt(Chinese, s, i)
    ensures Contains(s, ChineseMarker)
  {
  }

  /** The Chinese confirmation `请求 ID 为 <id> (1 个文件)` yields `<id>`: the
      spaces after the marker are skipped and the annotation after the next
      space is left out. */
  lemma ChineseConfirmation(spaces: string, id: string, tail: string)
    requires spaces != "" && forall i :: 0 <= i < |spaces| ==> IsSpace(spaces[i])
    requires id != "" && NoSpace(id)
    requires tail == "" || IsSpace(tail[0])
    requires !Contains(ChineseMarker + spaces + id + tail, EnglishMarker)
    ensures ExtractJobId(ChineseMarker + spaces + id + tail) == Some(id)
  {
    var s := ChineseMarker + spaces + id + tail;
    var j := |ChineseMarker|;
    assert s[0..j] == ChineseMarker;
    forall m | j <= m < j + |spaces|
      ensures IsSpace(s[m])
    {
      assert s[m] == spaces[m - j];
    }
    SpaceEndAt(s, j, j + |spaces|);
    var k := SpaceEnd(s, j);
    assert s[k] == id[0];
    assert MatchAt(Chinese, s, 0);
    ChineseMarkerAt(s, 0);
    forall m | k <= m < k + |id|
      ensures !IsSpace(s[m])
    {
      assert s[m] == id[m - k];
    }
    WordEndAt(s, k, k + |id|);
    var e := WordEnd(s, k);
    assert s[k..e] == id;
    assert Capture(Chinese, s, 0) == id;
  }

  /** The shape promise of `printFile`: a job ID on the command-line path is
      a non-empty whitespace-free word of the output, and an error there is
      never empty unless it comes from an exception with neither a message
      nor a string form. */
  lemma PrintFileOutcome(filePath: string, o: PrintOptions, native: NativePrint,
                         lp: seq<string> -> Call<string>)
    ensures var r := PrintFile(filePath, o, native, lp);
            var nativeCall := if native.Some? then Some(native.value(o.printer, filePath, NativeOptions(Ticket(o)))) else None;
            var run := lp(LpArgs(Ticket(o), filePath));
            && (r.JobId? && !(nativeCall.Some? && nativeCall.value.Returned?) ==>
                  run.Returned? && r.id != "" && NoSpace(r.id))
            && (r.Error? && r.message == "" ==>
                  run.Threw? && run.error.message == "" && run.error.text == "")
  {
  }
}

=== FILE: js_text.dfy ===
/**
 * The pieces of the JavaScript runtime that the print broker's string logic
 * leans on: thrown values, the `\s` character class, `split`/`join` with a
 * one-character separator, `filter`, `trim`, `String(number)` for integers
 * and ASCII lower-casing. Every later module builds on these definitions.
 */
module JsText {

  datatype Option<+T> = None | Some(value: T)

  /** A thrown JavaScript value: its `message` property ("" when it has none)
      and its `String(err)` rendering. */
  datatype Exception = Exception(message: string, text: string)

  /** The text reported for a caught exception, `err.message || String(err)`. */
  function ErrorText(e: Exception): (t: string)
    ensures e.message != "" ==> t == e.message
    ensures e.message == "" ==> t == e.text
  {
    if e.message != "" then e.message else e.text
  }

  /** The outcome of a call into code outside the model (a native binding,
      a subprocess, the file system): it returns a value or it throws. */
  datatype Call<+T> = Returned(value: T) | Threw(error: Exception)

  /** Membership in the regular-expression class `\s`, which is also the set
      of characters `String.prototype.trim` removes: the ASCII controls
      TAB, LF, VT, FF, CR, the space, and the Unicode space separators,
      line/paragraph separators and the byte-order mark. */
  predicate IsSpace(c: char) {
    var n := c as int;
    || (9 <= n <= 13) || n == 0x20 || n == 0xA0 || n == 0x1680
    || (0x2000 <= n <= 0x200A) || n == 0x2028 || n == 0x2029
    || n == 0x202F || n == 0x205F || n == 0x3000 || n == 0xFEFF
  }

  predicate NoSpace(s: string) {
    forall i :: 0 <= i < |s| ==> !IsSpace(s[i])
  }

  predicate StartsWith(s: string, prefix: string) {
    |prefix| <= |s| && s[..|prefix|] == prefix
  }

  /** `s.endsWith(suffix)` */
  predicate EndsWith(s: string, suffix: string) {
    |suffix| <= |s| && s[|s| - |suffix|..] == suffix
  }

  /** `pattern` occurs in `s` starting at index `i`. */
  predicate OccursAt(s: string, pattern: string, i: int) {
    0 <= i && i + |pattern| <= |s| && s[i..i + |pattern|] == pattern
  }

  /** `s.includes(pattern)` */
  predicate Contains(s: string, pattern: string) {
    exists i | 0 <= i <= |s| - |pattern| :: OccursAt(s, pattern, i)
  }

  /** The index of the first `c` in `s`, or `|s|` when there is none. */
  function IndexOf(s: string, c: char): (k: nat)
    ensures k <= |s|
    ensures k < |s| ==> s[k] == c
    ensures forall j :: 0 <= j < k ==> s[j] != c
  {
    if |s| == 0 then 0
    else if s[0] == c then 0
    else 1 + IndexOf(s[1..], c)
  }

  lemma IndexOfAbsent(s: string, c: char)
    requires c !in s
    ensures IndexOf(s, c) == |s|
  {
  }

  /** Searching a concatenation whose first part lacks `c` skips that part. */
  lemma {:induction false} IndexOfAfter(a: string, b: string, c: char)
    requires c !in a
    ensures IndexOf(a + b, c) == |a| + IndexOf(b, c)
    decreases |a|
  {
    if |a| > 0 {
      assert (a + b)[1..] == a[1..] + b;
      IndexOfAfter(a[1..], b, c);
    } else {
      assert a + b == b;
    }
  }

  /** `path.join(dir, name)` for a directory and a plain file name; the
      normalisation of `.`, `..` and repeated separators is not modelled. */
  function PathJoin(dir: string, name: string): (path: string)
    ensures EndsWith(path, name)
    ensures dir == "" ==> path == name
    ensures dir != "" && dir[|dir| - 1] != '/' ==> path == dir + "/" + name
    ensures dir != "" && dir[|dir| - 1] == '/' ==> path == dir + name
  {
    var path := if dir == "" then name else if dir[|dir| - 1] == '/' then dir + name else dir + "/" + name;
    assert path[|path| - |name|..] == name;
    path
  }

  /** `parts.join(sep)` */
  function Join(parts: seq<string>, sep: string): string
  {
    if |parts| == 0 then ""
    else if |parts| == 1 then parts[0]
    else parts[0] + sep + Join(parts[1..], sep)
  }

  /** `s.split(sep)` for a one-character separator: the maximal pieces
      between separators, including empty ones, and never an empty array. */
  function Split(s: string, sep: char): (parts: seq<string>)
    ensures |parts| >= 1
    ensures forall i :: 0 <= i < |parts| ==> sep !in parts[i]
    ensures Join(parts, [sep]) == s
    decreases |s|
  {
    var k := IndexOf(s, sep);
    if k == |s| then
      assert sep !in s;
      [s]
    else
      var rest := Split(s[k + 1..], sep);
      var parts := [s[..k]] + rest;
      assert parts[1..] == rest;
      assert s == s[..k] + [sep] + s[k + 1..];
      parts
  }

  /** The text before the first `sep`: `s.split(sep)[0]`. */
  function FirstField(s: string, sep: char): (f: string)
    ensures f == s[..IndexOf(s, sep)]
    ensures StartsWith(s, f) && sep !in f
    ensures |f| < |s| ==> s[|f|] == sep
  {
    var k := IndexOf(s, sep);
    assert Split(s, sep)[0] == s[..k];
    Split(s, sep)[0]
  }

  /** Splitting what `Join` produced gives the parts back, as long as no part
      contains the separator. */
  lemma {:induction false} SplitJoin(parts: seq<string>, sep: char)
    requires |parts| >= 1
    requires forall i :: 0 <= i < |parts| ==> sep !in parts[i]
    ensures Split(Join(parts, [sep]), sep) == parts
    decreases |parts|
  {
    var s := Join(parts, [sep]);
    if |parts| == 1 {
      IndexOfAbsent(parts[0], sep);
    } else {
      var p := parts[0];
      var tail := Join(parts[1..], [sep]);
      assert s == p + [sep] + tail;
      var k := IndexOf(s, sep);
      assert s[|p|] == sep;
      assert k == |p|;
      assert s[..k] == p;
      assert s[k + 1..] == tail;
      SplitJoin(parts[1..], sep);
    }
  }
  /** Joining two non-empty lists of parts is joining each and putting one
      separator between. */
  lemma {:induction false} JoinAppend(a: seq<string>, b: seq<string>, sep: string)
    requires |a| >= 1 && |b| >= 1
    ensures Join(a + b, sep) == Join(a, sep) + sep + Join(b, sep)
    decreases |a|
  {
    if |a| > 1 {
      assert (a + b)[1..] == a[1..] + b;
      JoinAppend(a[1..], b, sep);
    }
  }

  /** Splitting at a separator between two texts splits each text on its
      own: no piece runs across the separator. */
  lemma SplitAround(x: string, y: string, sep: char)
    ensures Split(x + [sep] + y, sep) == Split(x, sep) + Split(y, sep)
  {
    var p := Split(x, sep);
    var q := Split(y, sep);
    JoinAppend(p, q, [sep]);
    assert forall i :: 0 <= i < |p + q| ==> sep !in (p + q)[i];
    SplitJoin(p + q, sep);
  }


  /** `xs.filter(keep)`: the kept elements, in their original order. */
  function Filter(xs: seq<string>, keep: string -> bool): (r: seq<string>)
    ensures |r| <= |xs|
    ensures forall i :: 0 <= i < |r| ==> keep(r[i])
    ensures forall x :: multiset(r)[x] == if keep(x) then multiset(xs)[x] else 0
  {
    if |xs| == 0 then []
    else
      var rest := Filter(xs[1..], keep);
      assert xs == [xs[0]] + xs[1..];
      if keep(xs[0]) then [xs[0]] + rest else rest
  }

  /** Filtering distributes over concatenation, which together with the
      one-element case says the kept elements stay in their order. */
  lemma {:induction false} FilterAppend(a: seq<string>, b: seq<string>, keep: string -> bool)
    ensures Filter(a + b, keep) == Filter(a, keep) + Filter(b, keep)
    decreases |a|
  {
    if |a| > 0 {
      assert (a + b)[1..] == a[1..] + b;
      FilterAppend(a[1..], b, keep);
    } else {
      assert a + b == b;
    }
  }

  /** Filtering keeps a sequence whose elements all pass. */
  lemma {:induction false} FilterKeepsAll(xs: seq<string>, keep: string -> bool)
    requires forall i :: 0 <= i < |xs| ==> keep(xs[i])
    ensures Filter(xs, keep) == xs
    decreases |xs|
  {
    if |xs| > 0 {
      FilterKeepsAll(xs[1..], keep);
    }
  }

  /** JavaScript truthiness of a string. */
  predicate NonEmpty(s: string) {
    s != ""
  }

  /** `s.trimStart()` */
  function TrimStart(s: string): (r: string)
    ensures |r| <= |s| && r == s[|s| - |r|..]
    ensures forall i :: 0 <= i < |s| - |r| ==> IsSpace(s[i])
    ensures r == "" || !IsSpace(r[0])
  {
    if |s| > 0 && IsSpace(s[0]) then TrimStart(s[1..]) else s
  }

  /** `s.trimEnd()` */
  function TrimEnd(s: string): (r: string)
    ensures |r| <= |s| && r == s[..|r|]
    ensures forall i :: |r| <= i < |s| ==> IsSpace(s[i])
    ensures r == "" || !IsSpace(r[|r| - 1])
  {
    if |s| > 0 && IsSpace(s[|s| - 1]) then TrimEnd(s[..|s| - 1]) else s
  }

  /** `s.trim()` */
  function Trim(s: string): string {
    TrimEnd(TrimStart(s))
  }

  predicate IsDigit(c: char) {
    '0' <= c <= '9'
  }

  predicate AllDigits(s: string) {
    forall i :: 0 <= i < |s| ==> IsDigit(s[i])
  }

  function DigitChar(d: nat): (c: char)
    requires d < 10
    ensures IsDigit(c) && c as int - '0' as int == d
  {
    ('0' as int + d) as char
  }

  /** Decimal digits of a natural number, most significant first. */
  function NatText(n: nat): (s: string)
    ensures |s| >= 1 && AllDigits(s)
    ensures |s| > 1 ==> s[0] != '0'
  {
    if n < 10 then [DigitChar(n)] else NatText(n / 10) + [DigitChar(n % 10)]
  }

  /** The value of a string of decimal digits. */
  function DigitsValue(s: string): nat
    requires AllDigits(s)
  {
    if |s| == 0 then 0
    else DigitsValue(s[..|s| - 1]) * 10 + (s[|s| - 1] as int - '0' as int)
  }

  lemma {:induction false} NatTextValue(n: nat)
    ensures DigitsValue(NatText(n)) == n
    decreases n
  {
    if n >= 10 {
      var s := NatText(n);
      assert s[..|s| - 1] == NatText(n / 10);
      NatTextValue(n / 10);
    }
  }

  /** `String(n)` for an integer of magnitude at most 2^53 - 1
      (`Number.MAX_SAFE_INTEGER`); beyond that JavaScript numbers are not
      exact and `String` prints rounded digits, which this does not model. */
  function NumberText(n: int): string {
    if n < 0 then "-" + NatText(-n) else NatText(n)
  }

  /** Reads back an optionally signed decimal integer; anything else is rejected. */
  function ParseNumberText(s: string): Option<int> {
    if |s| > 1 && s[0] == '-' && AllDigits(s[1..]) then Some(-(DigitsValue(s[1..]) as int))
    else if |s| > 0 && AllDigits(s) then Some(DigitsValue(s))
    else None
  }

  /** `String(n)` loses nothing: the text reads back as `n`. */
  lemma NumberTextRoundTrip(n: int)
    ensures ParseNumberText(NumberText(n)) == Some(n)
  {
    if n < 0 {
      var s := NumberText(n);
      assert s[1..] == NatText(-n);
      NatTextValue(-n);
    } else {
      NatTextValue(n);
    }
  }

  function AsciiLower(c: char): (d: char)
    ensures 'A' <= c <= 'Z' ==> d as int == c as int + 32
    ensures !('A' <= c <= 'Z') ==> d == c
  {
    if 'A' <= c <= 'Z' then (c as int + 32) as char else c
  }

  /** Lower-cases the ASCII letters of `s` and leaves every other character. */
  function LowerAscii(s: string): (r: string)
    ensures |r| == |s|
    ensures forall i :: 0 <= i < |s| ==> r[i] == AsciiLower(s[i])
  {
    seq(|s|, i requires 0 <= i < |s| => AsciiLower(s[i]))
  }
}

=== FILE: log_routes.dfy ===
/**
 * The log viewer routes (backend/logRoutes.ts). `GET /api/logs/` lists the
 * `.log` files of the `logs` directory, newest name first, with their
 * sizes and times; `GET /api/logs/:filename` returns the last 1000 non-empty
 * lines of one file. The directory listing, `stat` and `readFile` are
 * oracles. Names are ordered by code points, standing in for
 * `localeCompare`.
 */
module LogRoutes {
  import opened JsText
  import Logger

  const LogDir := "logs"
  const MaxLines := 1000

  predicate IsLogName(name: string) {
    EndsWith(name, ".log")
  }

  // ---------------------------------------------------------------------
  // Ordering of names
  // ---------------------------------------------------------------------

  /** `a` sorts at or before `b` in code-point lexicographic order. */
  predicate LexLe(a: string, b: string) {
    if |a| == 0 then true
    else if |b| == 0 then false
    else if a[0] != b[0] then a[0] < b[0]
    else LexLe(a[1..], b[1..])
  }

  lemma {:induction false} LexLeTotal(a: string, b: string)
    ensures LexLe(a, b) || LexLe(b, a)
    decreases |a|
  {
    if |a| > 0 && |b| > 0 && a[0] == b[0] {
      LexLeTotal(a[1..], b[1..]);
    }
  }

  lemma {:induction false} LexLeReflexive(a: string)
    ensures LexLe(a, a)
    decreases |a|
  {
    if |a| > 0 {
      LexLeReflexive(a[1..]);
    }
  }

  lemma {:induction false} LexLeAntisymmetric(a: string, b: string)
    requires LexLe(a, b) && LexLe(b, a)
    ensures a == b
    decreases |a|
  {
    if |a| > 0 && |b| > 0 {
      LexLeAntisymmetric(a[1..], b[1..]);
      assert a == [a[0]] + a[1..] && b == [b[0]] + b[1..];
    }
  }

  lemma {:induction false} LexLeTransitive(a: string, b: string, c: string)
    requires LexLe(a, b) && LexLe(b, c)
    ensures LexLe(a, c)
    decreases |a|
  {
    if |a| > 0 && |b| > 0 && |c| > 0 && a[0] == b[0] == c[0] {
      LexLeTransitive(a[1..], b[1..], c[1..]);
    }
  }

  /** Every name compares at or after its successor: `b.localeCompare(a)`
      order. */
  predicate Descending(xs: seq<string>) {
    forall i :: 0 < i < |xs| ==> LexLe(xs[i], xs[i - 1])
  }

  /** Inserts `x` into a descending sequence. */
  function InsertDescending(x: string, xs: seq<string>): (r: seq<string>)
    requires Descending(xs)
    ensures Descending(r)
    ensures multiset(r) == multiset(xs) + multiset{x}
    ensures |r| == |xs| + 1 && (r[0] == x || (|xs| > 0 && r[0] == xs[0]))
  {
    if |xs| == 0 || LexLe(xs[0], x) then [x] + xs
    else
      LexLeTotal(x, xs[0]);
      var rest := InsertDescending(x, xs[1..]);
      assert xs == [xs[0]] + xs[1..];
      [xs[0]] + rest
  }

  /** Sorts names into descending order (an insertion sort; any sort that
      orders the same names gives the same result, see `SortedIsUnique`). */
  function SortDescending(xs: seq<string>): (r: seq<string>)
    ensures Descending(r)
    ensures multiset(r) == multiset(xs)
  {
    if |xs| == 0 then []
    else
      assert xs == [xs[0]] + xs[1..];
      InsertDescending(xs[0], SortDescending(xs[1..]))
  }

  /** Neighbouring order extends to every pair. */
  lemma {:induction false} DescendingPairwise(xs: seq<string>)
    requires Descending(xs)
    ensures forall i, j :: 0 <= i < j < |xs| ==> LexLe(xs[j], xs[i])
    decreases |xs|
  {
    if |xs| > 1 {
      var tail := xs[1..];
      DescendingPairwise(tail);
      forall i, j | 0 <= i < j < |xs|
        ensures LexLe(xs[j], xs[i])
      {
        if i == 0 && j > 1 {
          assert LexLe(tail[j - 1], tail[0]);
          LexLeTransitive(xs[j], xs[1], xs[0]);
        } else if i > 0 {
          assert LexLe(tail[j - 1], tail[i - 1]);
        }
      }
    }
  }

  /** Two descending arrangements of the same names are identical: the order
      of the listing depends only on which names there are. */
  lemma {:induction false} SortedIsUnique(a: seq<string>, b: seq<string>)
    requires Descending(a) && Descending(b)
    requires multiset(a) == multiset(b)
    ensures a == b
    decreases |a|
  {
    if |a| == 0 {
      assert |multiset(b)| == 0;
    } else {
      SameFirst(a, b);
      SameRest(a, b);
      SortedIsUnique(a[1..], b[1..]);
      assert a == [a[0]] + a[1..] && b == [b[0]] + b[1..];
    }
  }

  /** Descending arrangements of the same non-empty names start alike: both
      start with a greatest name. */
  lemma SameFirst(a: seq<string>, b: seq<string>)
    requires Descending(a) && Descending(b)
    requires multiset(a) == multiset(b) && |a| > 0
    ensures |b| > 0 && a[0] == b[0]
  {
    assert |b| == |multiset(b)| == |a|;
    DescendingPairwise(a);
    DescendingPairwise(b);
    assert a[0] in multiset(b);
    var k :| 0 <= k < |b| && b[k] == a[0];
    assert b[0] in multiset(a);
    var m :| 0 <= m < |a| && a[m] == b[0];
    if m > 0 {
      assert LexLe(a[m], a[0]);
    } else {
      LexLeReflexive(a[0]);
    }
    if k > 0 {
      assert LexLe(b[k], b[0]);
    }
    LexLeAntisymmetric(a[0], b[0]);
  }

  /** Removing the same first name from equal collections leaves equal ones. */
  lemma SameRest(a: seq<string>, b: seq<string>)
    requires multiset(a) == multiset(b) && |a| > 0 && |b| > 0 && a[0] == b[0]
    ensures multiset(a[1..]) == multiset(b[1..])
  {
    assert a == [a[0]] + a[1..] && b == [b[0]] + b[1..];
    assert multiset(a[1..]) == multiset(a) - multiset{a[0]};
    assert multiset(b[1..]) == multiset(b) - multiset{b[0]};
  }

  // ---------------------------------------------------------------------
  // GET /api/logs/
  // ---------------------------------------------------------------------

  /** The `.log` entries of a directory listing, sorted descending. */
  function LogFileNames(entries: seq<string>): (names: seq<string>)
    ensures Descending(names)
    ensures forall x :: multiset(names)[x] == if IsLogName(x) then multiset(entries)[x] else 0
  {
    var logs := Filter(entries, IsLogName);
    SortDescending(logs)
  }

  /** What `stat` reports about a file. */
  datatype FileStat = FileStat(size: nat, birthtime: string, mtime: string)

  /** One element of the listing's `files` array. */
  datatype LogFileInfo = LogFileInfo(name: string, size: nat, created: string, modified: string)

  datatype ListResponse = Listing(files: seq<LogFileInfo>) | ListError(message: string)

  /** The `Promise.all` over `stat`: the infos in order, or None as soon as
      one `stat` throws. */
  function StatAll(names: seq<string>, stat: string -> Call<FileStat>): (r: Option<seq<LogFileInfo>>)
    ensures r.Some? <==> forall i :: 0 <= i < |names| ==> stat(PathJoin(LogDir, names[i])).Returned?
    ensures r.Some? ==> |r.value| == |names|
    ensures r.Some? ==> forall i :: 0 <= i < |names| ==>
              var st := stat(PathJoin(LogDir, names[i])).value;
              r.value[i] == LogFileInfo(names[i], st.size, st.birthtime, st.mtime)
  {
    if |names| == 0 then Some([])
    else
      match stat(PathJoin(LogDir, names[0]))
      case Threw(_) => None
      case Returned(st) =>
        var rest := StatAll(names[1..], stat);
        if rest.None? then None
        else Some([LogFileInfo(names[0], st.size, st.birthtime, st.mtime)] + rest.value)
  }

  /** `GET /api/logs/`: reading the directory or any `stat` failing gives
      the fixed error. */
  function ListLogs(dir: Call<seq<string>>, stat: string -> Call<FileStat>): (r: ListResponse)
    ensures r.ListError? ==> r.message == "无法读取日志目录"
    ensures dir.Threw? ==> r.ListError?
    ensures dir.Returned? ==> (r.Listing? <==> StatAll(LogFileNames(dir.value), stat).Some?)
    ensures dir.Returned? && r.Listing? ==> r.files == StatAll(LogFileNames(dir.value), stat).value
  {
    match dir
    case Threw(_) => ListError("无法读取日志目录")
    case Returned(entries) =>
      match StatAll(LogFileNames(entries), stat)
      case None => ListError("无法读取日志目录")
      case Some(infos) => Listing(infos)
  }

  /** The file the default logger writes is listed whenever it is in the
      log directory: its name ends in `.log`. */
  lemma LoggerFileIsListed(iso: string, entries: seq<string>)
    requires "app-" + Logger.DatePart(iso) + ".log" in entries
    ensures "app-" + Logger.DatePart(iso) + ".log" in LogFileNames(entries)
  {
    var name := "app-" + Logger.DatePart(iso) + ".log";
    assert name[|name| - 4..] == ".log";
    assert multiset(LogFileNames(entries))[name] == multiset(entries)[name] > 0;
  }

  // ---------------------------------------------------------------------
  // GET /api/logs/:filename
  // ---------------------------------------------------------------------

  /** `content.split('\n').filter(Boolean)` */
  function NonEmptyLines(content: string): (lines: seq<string>)
    ensures forall i :: 0 <= i < |lines| ==> lines[i] != "" && '\n' !in lines[i]
  {
    var pieces := Split(content, '\n');
    var lines := Filter(pieces, NonEmpty);
    assert forall i :: 0 <= i < |lines| ==> lines[i] in multiset(pieces) by {
      forall i | 0 <= i < |lines|
        ensures lines[i] in multiset(pieces)
      {
        assert multiset(lines)[lines[i]] > 0;
      }
    }
    lines
  }

  /** `lines.slice(-n)`: the last `n` elements, or all of them when fewer. */
  function Last(lines: seq<string>, n: nat): (r: seq<string>)
    ensures |r| == if |lines| <= n then |lines| else n
    ensures r == lines[|lines| - |r|..]
  {
    if |lines| <= n then lines else lines[|lines| - n..]
  }

  datatype ViewResponse =
    | View(filename: string, content: string, totalLines: nat, returnedLines: nat)
    | ViewError(message: string)

  /** `GET /api/logs/:filename`: the last 1000 non-empty lines, re-joined
      with newlines, and the counts; a failed read gives the fixed error. */
  function ViewLog(filename: string, read: string -> Call<string>): (r: ViewResponse)
    ensures read(PathJoin(LogDir, filename)).Threw? <==> r.ViewError?
    ensures r.ViewError? ==> r.message == "无法读取日志文件"
    ensures r.View? ==>
              var lines := NonEmptyLines(read(PathJoin(LogDir, filename)).value);
              && r.filename == filename
              && r.totalLines == |lines|
              && r.returnedLines <= MaxLines && r.returnedLines <= r.totalLines
              && r.returnedLines == (if r.totalLines <= MaxLines then r.totalLines else MaxLines)
              && r.content == Join(lines[r.totalLines - r.returnedLines..], "\n")
  {
    match read(PathJoin(LogDir, filename))
    case Threw(_) => ViewError("无法读取日志文件")
    case Returned(content) =>
      var lines := NonEmptyLines(content);
      var recent := Last(lines, MaxLines);
      View(filename, Join(recent, "\n"), |lines|, |recent|)
  }

  /** The returned content holds exactly the returned lines: splitting it on
      newlines and dropping empty pieces gives the last `returnedLines` lines
      of the file, none of them empty. When the file has at most 1000
      non-empty lines, that is all of them. */
  lemma ViewContentLines(filename: string, read: string -> Call<string>)
    requires read(PathJoin(LogDir, filename)).Returned?
    ensures var r := ViewLog(filename, read);
            var lines := NonEmptyLines(read(PathJoin(LogDir, filename)).value);
            && NonEmptyLines(r.content) == lines[r.totalLines - r.returnedLines..]
            && (r.content != "" ==> Split(r.content, '\n') == lines[r.totalLines - r.returnedLines..])
            && (r.totalLines <= MaxLines ==> NonEmptyLines(r.content) == lines)
  {
    var r := ViewLog(filename, read);
    var lines := NonEmptyLines(read(PathJoin(LogDir, filename)).value);
    var recent := lines[r.totalLines - r.returnedLines..];
    assert r.content == Join(recent, "\n");
    JoinedLines(recent);
  }

  /** Non-empty lines without newlines survive a join-then-split. */
  lemma JoinedLines(lines: seq<string>)
    requires forall i :: 0 <= i < |lines| ==> lines[i] != "" && '\n' !in lines[i]
    ensures NonEmptyLines(Join(lines, "\n")) == lines
    ensures Join(lines, "\n") != "" ==> Split(Join(lines, "\n"), '\n') == lines
  {
    if |lines| == 0 {
      assert Split("", '\n') == [""];
      assert Filter([""], NonEmpty) == [];
    } else {
      SplitJoin(lines, '\n');
      FilterKeepsAll(lines, NonEmpty);
    }
  }

  /** The lines of a text that follows a newline-ended text are counted on
      their own: nothing joins across the newline. So an entry the logger
      appends adds one view line per non-empty line of its text: several
      for a non-empty object or array argument (rendered by
      `JSON.stringify(arg, null, 2)`) or multi-line `lp` output; a trailing
      newline adds none. */
  lemma NonEmptyLinesAppend(a: string, b: string)
    requires |a| > 0 && a[|a| - 1] == '\n'
    ensures NonEmptyLines(a + b) == NonEmptyLines(a) + NonEmptyLines(b)
  {
    var x := a[..|a| - 1];
    assert a == x + "\n";
    assert a + b == x + ['\n'] + b;
    EmptyPiecesDropped(x);
    LinesAround(x, b);
  }

  /** The lines on either side of one newline are counted separately. */
  lemma LinesAround(x: string, b: string)
    ensures NonEmptyLines(x + ['\n'] + b) == NonEmptyLines(x) + NonEmptyLines(b)
  {
    SplitAround(x, b, '\n');
    FilterAppend(Split(x, '\n'), Split(b, '\n'), NonEmpty);
  }

  /** A text of non-empty newline-free lines, each ended by a newline, reads
      back as exactly those lines: the empty piece after the last newline is
      dropped and nothing else is. */
  lemma TerminatedLines(lines: seq<string>)
    requires forall i :: 0 <= i < |lines| ==> lines[i] != "" && '\n' !in lines[i]
    ensures NonEmptyLines(Join(lines, "\n") + "\n") == lines
  {
    EmptyPiecesDropped(Join(lines, "\n"));
    JoinedLines(lines);
  }

  /** A final newline adds no line. */
  lemma EmptyPiecesDropped(body: string)
    ensures NonEmptyLines(body + "\n") == NonEmptyLines(body)
  {
    assert body + "\n" == body + ['\n'] + "";
    LinesAround(body, "");
    assert Split("", '\n') == [""];
    assert Filter([""], NonEmpty) == [];
  }

  /** An entry whose line holds no newline is one line of the view. */
  lemma SingleLineEntry(timestamp: string, level: int, message: string, args: seq<string>)
    requires '\n' !in Logger.EntryLine(timestamp, Logger.LevelString(level), message, args)
    ensures NonEmptyLines(Logger.Entry(timestamp, level, message, args))
            == [Logger.EntryLine(timestamp, Logger.LevelString(level), message, args)]
  {
    var line := Logger.EntryLine(timestamp, Logger.LevelString(level), message, args);
    assert line[0] == '[';
    assert Join([line], "\n") == line;
    TerminatedLines([line]);
  }

  /** Viewing a text of non-empty newline-free lines, each ended by a
      newline, counts every line and returns the last `min(1000, n)` of
      them, joined with newlines. */
  lemma ViewOfLines(filename: string, read: string -> Call<string>, lines: seq<string>)
    requires forall i :: 0 <= i < |lines| ==> lines[i] != "" && '\n' !in lines[i]
    requires read(PathJoin(LogDir, filename)) == Returned(Join(lines, "\n") + "\n")
    ensures ViewLog(filename, read) == View(filename, Join(Last(lines, MaxLines), "\n"), |lines|, |Last(lines, MaxLines)|)
  {
    var content := read(PathJoin(LogDir, filename)).value;
    TerminatedLines(lines);
    assert NonEmptyLines(content) == lines;
  }
}

=== FILE: logger.dfy ===
/**
 * The backend logger (backend/logger.ts): numeric levels, a threshold below
 * which nothing is written, the `[timestamp] [LEVEL] message args` entry
 * layout, the date-named log file, and `always`, which also echoes the entry
 * to the console. Clocks and the file system are inputs: timestamps are the
 * ISO strings `new Date().toISOString()` produced, and whether `appendFile`
 * succeeded is a flag. Arguments arrive already rendered by `String(arg)` or
 * `JSON.stringify(arg, null, 2)`.
 */
module Logger {
  import opened JsText

  // `LogLevel` is a numeric enum: any number is a level, these four are named.
  const DEBUG := 0
  const INFO := 1
  const WARN := 2
  const ERROR := 3

  /** A logger instance: its directory, its file and the least level it keeps. */
  datatype Logger = Logger(logDir: string, logFile: string, minLevel: int)

  /** The date part of an ISO timestamp: the text before the first `T`. */
  function DatePart(iso: string): (date: string)
    ensures StartsWith(iso, date) && 'T' !in date
  {
    FirstField(iso, 'T')
  }

  /** An ISO timestamp `<date>T<time>` yields its date: the log file is
      named after the UTC date at which the logger was built, and later
      entries keep going to that file. */
  lemma DatePartOfIso(date: string, time: string)
    requires 'T' !in date
    ensures DatePart(date + "T" + time) == date
  {
    var iso := date + ("T" + time);
    assert iso == date + "T" + time;
    IndexOfAfter(date, "T" + time, 'T');
    assert IndexOf("T" + time, 'T') == 0;
    assert IndexOf(iso, 'T') == |date|;
    assert iso[..|date|] == date;
  }

  /** `join(logDir, "app-" + date + ".log")` */
  function LogFileName(logDir: string, iso: string): (path: string)
    ensures EndsWith(path, ".log")
    ensures EndsWith(path, "app-" + DatePart(iso) + ".log")
    ensures logDir != "" && logDir[|logDir| - 1] != '/' ==>
              path == logDir + "/app-" + DatePart(iso) + ".log"
  {
    var name := "app-" + DatePart(iso) + ".log";
    var path := PathJoin(logDir, name);
    assert path[|path| - 4..] == name[|name| - 4..];
    path
  }

  /** `new Logger(logDir, minLevel)` constructed at time `iso`. */
  function NewLogger(logDir: string, minLevel: int, iso: string): (lg: Logger)
    ensures lg.logDir == logDir && lg.minLevel == minLevel
    ensures lg.logFile == LogFileName(logDir, iso)
  {
    Logger(logDir, LogFileName(logDir, iso), minLevel)
  }

  /** The process-wide `logger`: directory `logs`, threshold INFO. */
  function DefaultLogger(iso: string): (lg: Logger)
    ensures lg.minLevel == INFO && lg.logDir == "logs"
    ensures lg.logFile == "logs/app-" + DatePart(iso) + ".log"
  {
    NewLogger("logs", INFO, iso)
  }

  /** `getLevelString(level)` */
  function LevelString(level: int): string {
    if level == DEBUG then "DEBUG"
    else if level == INFO then "INFO"
    else if level == WARN then "WARN"
    else if level == ERROR then "ERROR"
    else "UNKNOWN"
  }

  /** Reads a level name back; `UNKNOWN` and anything else name no level. */
  function LevelOf(name: string): Option<int> {
    if name == "DEBUG" then Some(DEBUG)
    else if name == "INFO" then Some(INFO)
    else if name == "WARN" then Some(WARN)
    else if name == "ERROR" then Some(ERROR)
    else None
  }

  /** The four named levels have distinct names that read back as the same
      level, in the order DEBUG < INFO < WARN < ERROR; every other number is
      reported as `UNKNOWN`. */
  lemma LevelNames(level: int)
    ensures LevelOf(LevelString(level)) == if DEBUG <= level <= ERROR then Some(level) else None
    ensures !(DEBUG <= level <= ERROR) <==> LevelString(level) == "UNKNOWN"
    ensures DEBUG < INFO < WARN < ERROR
  {
  }

  /** `writeLog` goes past its first line: the level is not below the threshold. */
  predicate Emits(lg: Logger, level: int) {
    !(level < lg.minLevel)
  }

  /** The threshold is monotone: a logger that keeps a level keeps every
      higher one, and the default logger drops DEBUG and keeps the rest. */
  lemma ThresholdMonotone(lg: Logger, level: int, higher: int, iso: string)
    requires Emits(lg, level) && level <= higher
    ensures Emits(lg, higher)
    ensures !Emits(DefaultLogger(iso), DEBUG)
    ensures Emits(DefaultLogger(iso), INFO) && Emits(DefaultLogger(iso), WARN) && Emits(DefaultLogger(iso), ERROR)
  {
  }

  /** The `argsStr` suffix: nothing without arguments, otherwise a space and
      the arguments joined with spaces. */
  function ArgsText(args: seq<string>): (t: string)
    ensures args == [] <==> t == ""
    ensures args != [] ==> t == " " + Join(args, " ")
  {
    if |args| > 0 then " " + Join(args, " ") else ""
  }

  /** `[timestamp] [TAG] message argsStr` without a line end. */
  function EntryLine(timestamp: string, tag: string, message: string, args: seq<string>): string {
    "[" + timestamp + "] [" + tag + "] " + message + ArgsText(args)
  }

  /** The text `writeLog` appends: the entry line and a newline. */
  function Entry(timestamp: string, level: int, message: string, args: seq<string>): (e: string)
    ensures |e| > 0 && e[|e| - 1] == '\n'
  {
    EntryLine(timestamp, LevelString(level), message, args) + "\n"
  }

  /** What a logging call does to the outside world. */
  datatype Effect =
    | AppendFile(path: string, text: string)
    | ConsoleError(text: string)
    | ConsoleLog(text: string)

  /** `writeLog(level, message, ...args)` at time `timestamp`; `appendOk`
      says whether `appendFile` succeeded. A failed append reports the
      failure and prints the trimmed entry to the console instead. */
  function WriteLog(lg: Logger, level: int, timestamp: string, message: string,
                    args: seq<string>, appendOk: bool): (effects: seq<Effect>)
    ensures effects == [] <==> !Emits(lg, level)
    ensures Emits(lg, level) && appendOk ==>
              effects == [AppendFile(lg.logFile, Entry(timestamp, level, message, args))]
    ensures Emits(lg, level) && !appendOk ==>
              effects == [ConsoleError("Failed to write to log file:"),
                          ConsoleLog(Trim(Entry(timestamp, level, message, args)))]
  {
    if level < lg.minLevel then []
    else
      var entry := Entry(timestamp, level, message, args);
      if appendOk then [AppendFile(lg.logFile, entry)]
      else [ConsoleError("Failed to write to log file:"), ConsoleLog(Trim(entry))]
  }

  /** The file is fixed when the logger is built: an entry written at any
      later time still goes to the file named after the start date. */
  lemma {:induction false} NoDailyRollover(day: string, time: string, later: string,
                                          message: string, args: seq<string>)
    requires 'T' !in day
    ensures WriteLog(DefaultLogger(day + "T" + time), INFO, later, message, args, true)
            == [AppendFile("logs/app-" + day + ".log", Entry(later, INFO, message, args))]
  {
    DatePartOfIso(day, time);
  }

  /** `always(message, ...args)`: a console line tagged INFO without a line
      end (timestamp `shown`), then `writeLog` at INFO (timestamp `written`),
      which the threshold still governs. */
  function Always(lg: Logger, shown: string, written: string, message: string,
                  args: seq<string>, appendOk: bool): (effects: seq<Effect>)
    ensures |effects| >= 1 && effects[0] == ConsoleLog(EntryLine(shown, "INFO", message, args))
    ensures effects[1..] == WriteLog(lg, INFO, written, message, args, appendOk)
    ensures |effects| == 1 <==> lg.minLevel > INFO
  {
    [ConsoleLog(EntryLine(shown, "INFO", message, args))] + WriteLog(lg, INFO, written, message, args, appendOk)
  }

  // ---------------------------------------------------------------------
  // Reading entries back
  // ---------------------------------------------------------------------

  /** The fields of a log line. */
  datatype EntryParts = EntryParts(timestamp: string, tag: string, text: string)

  /** Splits `[inside]after` at the first `]`. */
  function Bracketed(s: string): Option<(string, string)> {
    if |s| >= 1 && s[0] == '[' then
      var k := IndexOf(s[1..], ']');
      if k < |s| - 1 then Some((s[1..k + 1], s[k + 2..])) else None
    else None
  }

  /** Splits `[timestamp] [TAG] text` at the first `]` of each bracket. */
  function ParseLine(line: string): Option<EntryParts> {
    match Bracketed(line)
    case None => None
    case Some((timestamp, rest)) =>
      if !StartsWith(rest, " ") then None
      else match Bracketed(rest[1..])
        case None => None
        case Some((tag, text)) =>
          if StartsWith(text, " ") then Some(EntryParts(timestamp, tag, text[1..])) else None
  }

  /** Reads a file entry: a log line ended by a newline. */
  function ParseEntry(entry: string): Option<EntryParts> {
    if |entry| > 0 && entry[|entry| - 1] == '\n' then ParseLine(entry[..|entry| - 1]) else None
  }

  lemma BracketedOf(inside: string, after: string)
    requires ']' !in inside
    ensures Bracketed("[" + inside + "]" + after) == Some((inside, after))
  {
    var s := "[" + inside + "]" + after;
    assert s[1..] == inside + ("]" + after);
    IndexOfAfter(inside, "]" + after, ']');
    assert s[1..|inside| + 1] == inside;
    assert s[|inside| + 2..] == after;
  }

  lemma ParseLineOf(timestamp: string, tag: string, text: string)
    requires ']' !in timestamp && ']' !in tag
    ensures ParseLine("[" + timestamp + "] [" + tag + "] " + text) == Some(EntryParts(timestamp, tag, text))
  {
    var line := "[" + timestamp + "] [" + tag + "] " + text;
    var rest := " [" + tag + "] " + text;
    assert line == "[" + timestamp + "]" + rest;
    BracketedOf(timestamp, rest);
    TagOf(tag, text);
  }

  /** The part after the timestamp: a space, the bracketed tag, a space. */
  lemma TagOf(tag: string, text: string)
    requires ']' !in tag
    ensures var rest := " [" + tag + "] " + text;
            && StartsWith(rest, " ")
            && Bracketed(rest[1..]) == Some((tag, " " + text))
            && StartsWith(" " + text, " ") && (" " + text)[1..] == text
  {
    var rest := " [" + tag + "] " + text;
    assert rest[1..] == "[" + tag + "]" + (" " + text);
    BracketedOf(tag, " " + text);
  }

  lemma ParseEntryLine(timestamp: string, tag: string, message: string, args: seq<string>)
    requires ']' !in timestamp && ']' !in tag
    ensures ParseLine(EntryLine(timestamp, tag, message, args))
            == Some(EntryParts(timestamp, tag, message + ArgsText(args)))
  {
    var text := message + ArgsText(args);
    assert EntryLine(timestamp, tag, message, args) == "[" + timestamp + "] [" + tag + "] " + text;
    ParseLineOf(timestamp, tag, text);
  }

  /** A file entry reads back as its timestamp, its level name and the message
      with its arguments, for timestamps without `]` such as ISO ones. */
  lemma EntryRoundTrip(timestamp: string, level: int, message: string, args: seq<string>)
    requires ']' !in timestamp
    ensures ParseEntry(Entry(timestamp, level, message, args))
            == Some(EntryParts(timestamp, LevelString(level), message + ArgsText(args)))
  {
    var e := Entry(timestamp, level, message, args);
    assert e[..|e| - 1] == EntryLine(timestamp, LevelString(level), message, args);
    ParseEntryLine(timestamp, LevelString(level), message, args);
  }

  /** The console line of `always` has the INFO entry layout at its own
      timestamp, without the newline; when both clock reads agree and the
      append succeeds, it is the appended entry minus its newline. */
  lemma AlwaysConsoleLine(lg: Logger, shown: string, written: string, message: string,
                          args: seq<string>, appendOk: bool)
    requires ']' !in shown
    ensures var effects := Always(lg, shown, written, message, args, appendOk);
            && ParseLine(effects[0].text) == Some(EntryParts(shown, "INFO", message + ArgsText(args)))
            && effects[0].text + "\n" == Entry(shown, INFO, message, args)
    ensures var effects := Always(lg, shown, written, message, args, appendOk);
            shown == written && appendOk && Emits(lg, INFO) ==>
              effects[1] == AppendFile(lg.logFile, effects[0].text + "\n")
  {
    ParseEntryLine(shown, "INFO", message, args);
  }
}

=== FILE: server.dfy ===
/**
 * The production HTTP server (backend/server-production.ts): the printer
 * listing route, the upload gate of `POST /api/print` with its temp-file
 * cleanup decision, and the static-file route with its single-page-app
 * fallback. Form parsing, `JSON.parse`, `Bun.write`, `existsSync` and the
 * clock are oracles or inputs; timers are reduced to the decision to clean
 * up later or at once.
 */
module Server {
  import opened JsText
  import opened CupsManager

  // ---------------------------------------------------------------------
  // GET /api/printers
  // ---------------------------------------------------------------------

  datatype PrintersReply = Printers(printers: seq<string>) | PrintersError(error: string)

  /** `GET /api/printers`: the discovered names, or a fixed error when
      discovery throws. */
  function PrintersRoute(native: NativeNames, lpstat: Call<string>): (r: PrintersReply)
    ensures r.Printers? <==> GetPrinters(native, lpstat).Returned?
    ensures r.Printers? ==> r.printers == GetPrinters(native, lpstat).value
    ensures r.PrintersError? ==> r.error == "无法获取打印机列表"
  {
    match GetPrinters(native, lpstat)
    case Returned(names) => Printers(names)
    case Threw(_) => PrintersError("无法获取打印机列表")
  }

  /** The route only fails when the binding did not deliver and `lpstat`
      could not be spawned. */
  lemma PrintersRouteFails(native: NativeNames, lpstat: Call<string>)
    ensures PrintersRoute(native, lpstat).PrintersError? <==>
              !(native.Some? && native.value.Returned?) && lpstat.Threw?
  {
  }

  // ---------------------------------------------------------------------
  // POST /api/print: the request gate
  // ---------------------------------------------------------------------

  /** A `formData.get` result: null, a string, or an uploaded `File`. */
  datatype FormValue = Absent | Text(s: string) | Upload(name: string)

  datatype PrintRequest = PrintRequest(file: FormValue, options: FormValue)

  /** JavaScript truthiness: null and the empty string are falsy, a `File`
      never is. */
  predicate Truthy(v: FormValue) {
    v.Upload? || (v.Text? && v.s != "")
  }

  /** The string `JSON.parse` converts its argument to. */
  function FormText(v: FormValue): string {
    match v
    case Text(s) => s
    case Upload(_) => "[object File]"
    case Absent => "null"
  }

  const NoFileError := "未上传文件"
  const MissingOptionsError := "缺少打印参数"
  const BadOptionsError := "打印参数格式错误"
  const BadTypeError := "仅支持 PDF/Word/图片文件"

  const Extensions := ["pdf", "doc", "docx", "png", "jpg", "jpeg"]

  /** `/\.(pdf|docx?|png|jpg|jpeg)$/i` matches: the name, lower-cased, ends
      in a dot and one of the extensions. Under the `i` flag an ASCII letter
      of the pattern matches only itself and its capital, so ASCII
      lower-casing is exact here. */
  predicate AllowedFileName(name: string) {
    var lower := LowerAscii(name);
    || EndsWith(lower, ".pdf") || EndsWith(lower, ".doc") || EndsWith(lower, ".docx")
    || EndsWith(lower, ".png") || EndsWith(lower, ".jpg") || EndsWith(lower, ".jpeg")
  }

  /** Character `c` matches pattern character `p` case-insensitively: `p`
      itself, or its capital when `p` is a lower-case letter. */
  predicate MatchesIgnoringCase(c: char, p: char) {
    c == p || ('a' <= p <= 'z' && c as int == p as int - 32)
  }

  /** `name` ends with `suffix`, letters compared without case. */
  predicate EndsWithIgnoringCase(name: string, suffix: string) {
    && |suffix| <= |name|
    && forall i :: 0 <= i < |suffix| ==> MatchesIgnoringCase(name[|name| - |suffix| + i], suffix[i])
  }

  lemma LowerSuffix(name: string, suffix: string)
    requires forall i :: 0 <= i < |suffix| ==> suffix[i] == '.' || 'a' <= suffix[i] <= 'z'
    ensures EndsWith(LowerAscii(name), suffix) <==> EndsWithIgnoringCase(name, suffix)
  {
    var lower := LowerAscii(name);
    if EndsWithIgnoringCase(name, suffix) {
      assert forall i :: 0 <= i < |suffix| ==> lower[|name| - |suffix| + i] == suffix[i];
      assert lower[|lower| - |suffix|..] == suffix;
    }
    if EndsWith(lower, suffix) {
      forall i | 0 <= i < |suffix|
        ensures MatchesIgnoringCase(name[|name| - |suffix| + i], suffix[i])
      {
        assert lower[|name| - |suffix| + i] == suffix[i];
      }
    }
  }

  /** The accepted names are exactly those ending in `.` and an extension
      from the list, in any mix of upper and lower case. */
  lemma AllowedFileNameMeaning(name: string)
    ensures AllowedFileName(name) <==>
              exists ext :: ext in Extensions && EndsWithIgnoringCase(name, "." + ext)
  {
    forall ext | ext in Extensions
      ensures EndsWith(LowerAscii(name), "." + ext) <==> EndsWithIgnoringCase(name, "." + ext)
    {
      LowerSuffix(name, "." + ext);
    }
    assert AllowedFileName(name) <==> exists ext :: ext in Extensions && EndsWith(LowerAscii(name), "." + ext) by {
      assert "." + Extensions[0] == ".pdf";
      assert "." + Extensions[1] == ".doc";
      assert "." + Extensions[2] == ".docx";
      assert "." + Extensions[3] == ".png";
      assert "." + Extensions[4] == ".jpg";
      assert "." + Extensions[5] == ".jpeg";
    }
  }

  /** The outcome of the checks: proceed with the file name and options, or
      answer with an error. */
  datatype Gate = Accept(fileName: string, options: PrintOptions) | Reject(error: string)

  /** The four checks, in order; the first failing one answers. */
  function Validate(req: PrintRequest, parse: string -> Option<PrintOptions>): (g: Gate)
    ensures g == Reject(NoFileError) <==> !req.file.Upload?
    ensures g == Reject(MissingOptionsError) <==> req.file.Upload? && !Truthy(req.options)
    ensures g == Reject(BadOptionsError) <==>
              req.file.Upload? && Truthy(req.options) && parse(FormText(req.options)).None?
    ensures g == Reject(BadTypeError) <==>
              && req.file.Upload? && Truthy(req.options) && parse(FormText(req.options)).Some?
              && !AllowedFileName(req.file.name)
    ensures g.Accept? <==>
              && req.file.Upload? && Truthy(req.options) && parse(FormText(req.options)).Some?
              && AllowedFileName(req.file.name)
    ensures g.Accept? ==> g.fileName == req.file.name && g.options == parse(FormText(req.options)).value
  {
    if !req.file.Upload? then Reject(NoFileError)
    else if !Truthy(req.options) then Reject(MissingOptionsError)
    else match parse(FormText(req.options))
      case None => Reject(BadOptionsError)
      case Some(options) =>
        if !AllowedFileName(req.file.name) then Reject(BadTypeError)
        else Accept(req.file.name, options)
  }

  // ---------------------------------------------------------------------
  // POST /api/print: submission and cleanup
  // ---------------------------------------------------------------------

  const CleanupDelayMs := 5000

  /** What happens to the temp file after the response: nothing (it was
      never written), emptied after a delay, or emptied at once. */
  datatype Cleanup = NoCleanup | Delayed(path: string, ms: nat) | Immediate(path: string)

  /** The handler's outcome: a JSON body, or an exception rethrown to the
      framework; either way with its cleanup decision. */
  datatype PrintReply = Reply(body: PrintResult, cleanup: Cleanup) | Raise(error: Exception, cleanup: Cleanup)

  /** `/tmp/${Date.now()}_${file.name}` */
  function TempPath(now: nat, name: string): (path: string)
    ensures StartsWith(path, "/tmp/") && EndsWith(path, "_" + name)
  {
    var path := "/tmp/" + NumberText(now) + "_" + name;
    assert path[..5] == "/tmp/";
    assert path[|path| - |"_" + name|..] == "_" + name;
    path
  }

  /** `!result.error`: no error field, or an empty one. */
  predicate Succeeded(r: PrintResult) {
    r.JobId? || r.message == ""
  }

  /** `POST /api/print`. `save` writes the upload to a path (it may throw),
      `submit` is the submission call. */
  function HandlePrint(req: PrintRequest, parse: string -> Option<PrintOptions>, now: nat,
                       save: string -> Call<()>, submit: (string, PrintOptions) -> Call<PrintResult>): (r: PrintReply)
    ensures Validate(req, parse).Reject? ==> r == Reply(Error(Validate(req, parse).error), NoCleanup)
    ensures Validate(req, parse).Accept? ==>
              var g := Validate(req, parse);
              var temp := TempPath(now, g.fileName);
              && (save(temp).Threw? ==> r == Raise(save(temp).error, NoCleanup))
              && (save(temp).Returned? && submit(temp, g.options).Threw? ==>
                    r == Raise(submit(temp, g.options).error, Immediate(temp)))
              && (save(temp).Returned? && submit(temp, g.options).Returned? ==>
                    && r.Reply? && r.body == submit(temp, g.options).value
                    && (Succeeded(r.body) ==> r.cleanup == Delayed(temp, CleanupDelayMs))
                    && (!Succeeded(r.body) ==> r.cleanup == Immediate(temp)))
  {
    match Validate(req, parse)
    case Reject(message) => Reply(Error(message), NoCleanup)
    case Accept(name, options) =>
      var temp := TempPath(now, name);
      match save(temp)
      case Threw(e) => Raise(e, NoCleanup)
      case Returned(_) =>
        match submit(temp, options)
        case Threw(e) => Raise(e, Immediate(temp))
        case Returned(result) =>
          Reply(result, if Succeeded(result) then Delayed(temp, CleanupDelayMs) else Immediate(temp))
  }

  /** A rejected request never reaches the file system or the printer: its
      reply is the same whatever `save` and `submit` would do. */
  lemma RejectedRequestTouchesNothing(req: PrintRequest, parse: string -> Option<PrintOptions>, now: nat,
                                      save1: string -> Call<()>, submit1: (string, PrintOptions) -> Call<PrintResult>,
                                      save2: string -> Call<()>, submit2: (string, PrintOptions) -> Call<PrintResult>)
    requires Validate(req, parse).Reject?
    ensures HandlePrint(req, parse, now, save1, submit1) == HandlePrint(req, parse, now, save2, submit2)
  {
  }

  /** With the real adapter behind it, the handler's exception branch is
      dead: `printFile` never throws, so a raise can only come from saving
      the upload, and then there is no file to clean. A job ID always gets
      the delayed cleanup. */
  lemma HandlerWithAdapter(req: PrintRequest, parse: string -> Option<PrintOptions>, now: nat,
                           save: string -> Call<()>, native: NativePrint, lp: seq<string> -> Call<string>)
    ensures var r := HandlePrint(req, parse, now, save, (path, o) => Returned(PrintFile(path, o, native, lp)));
            && (r.Raise? ==> r.cleanup == NoCleanup)
            && (r.Reply? && r.body.JobId? ==> r.cleanup.Delayed? && r.cleanup.ms == CleanupDelayMs)
  {
  }

  // ---------------------------------------------------------------------
  // The catch-all GET route: static files
  // ---------------------------------------------------------------------

  /** `/` stands for `/index.html`. */
  function RequestedPath(pathname: string): string {
    if pathname == "/" then "/index.html" else pathname
  }

  const StaticRoots := ["./frontend/dist", "../frontend/dist", "./dist/frontend", "./static"]

  /** The four places a requested file may live, in search order. */
  function StaticCandidates(path: string): (c: seq<string>)
    ensures |c| == |StaticRoots|
    ensures forall i :: 0 <= i < |c| ==> c[i] == StaticRoots[i] + path
  {
    [StaticRoots[0] + path, StaticRoots[1] + path, StaticRoots[2] + path, StaticRoots[3] + path]
  }

  /** The single-page-app fallbacks, in search order. */
  const IndexCandidates := ["./frontend/dist/index.html", "../frontend/dist/index.html",
                            "./dist/frontend/index.html", "./static/index.html"]

  /** The first path that exists, in order. */
  function FirstExisting(paths: seq<string>, present: string -> bool): (r: Option<string>)
    ensures r.Some? ==> present(r.value) && r.value in paths
    ensures r.Some? ==> exists k :: 0 <= k < |paths| && paths[k] == r.value &&
                                    forall j :: 0 <= j < k ==> !present(paths[j])
    ensures r.None? <==> forall j :: 0 <= j < |paths| ==> !present(paths[j])
  {
    if |paths| == 0 then None
    else if present(paths[0]) then Some(paths[0])
    else
      var r := FirstExisting(paths[1..], present);
      assert forall j :: 1 <= j < |paths| ==> paths[j] == paths[1..][j - 1];
      if r.Some? then
        var k :| 0 <= k < |paths[1..]| && paths[1..][k] == r.value &&
                 forall j :: 0 <= j < k ==> !present(paths[1..][j]);
        assert paths[k + 1] == r.value;
        r
      else r
  }

  datatype StaticReply = ServeFile(path: string) | NotFound(status: nat, body: string)

  /** The catch-all `GET` route: the first existing candidate for the requested path, else the
      first existing `index.html`, else 404. */
  function ServeStatic(pathname: string, present: string -> bool): (r: StaticReply)
    ensures r.ServeFile? ==> present(r.path)
    ensures r.NotFound? ==> r.status == 404 && r.body == "File not found"
  {
    match FirstExisting(StaticCandidates(RequestedPath(pathname)), present)
    case Some(path) => ServeFile(path)
    case None =>
      match FirstExisting(IndexCandidates, present)
      case Some(path) => ServeFile(path)
      case None => NotFound(404, "File not found")
  }

  /** Searching two lists in turn is searching their concatenation. */
  lemma {:induction false} FirstExistingAppend(a: seq<string>, b: seq<string>, present: string -> bool)
    ensures FirstExisting(a + b, present) ==
              if FirstExisting(a, present).Some? then FirstExisting(a, present) else FirstExisting(b, present)
    decreases |a|
  {
    if |a| == 0 {
      assert a + b == b;
    } else {
      assert (a + b)[1..] == a[1..] + b;
      FirstExistingAppend(a[1..], b, present);
    }
  }

  /** The static route is one ordered search over eight paths: the four
      candidates for the requested file, then the four `index.html`
      fallbacks; it answers 404 exactly when none of the eight exists. */
  lemma ServeStaticIsOneSearch(pathname: string, present: string -> bool)
    ensures var all := StaticCandidates(RequestedPath(pathname)) + IndexCandidates;
            ServeStatic(pathname, present).NotFound? <==> forall j :: 0 <= j < |all| ==> !present(all[j])
    ensures var all := StaticCandidates(RequestedPath(pathname)) + IndexCandidates;
            ServeStatic(pathname, present).ServeFile? ==> FirstExisting(all, present) == Some(ServeStatic(pathname, present).path)
  {
    var first := StaticCandidates(RequestedPath(pathname));
    FirstExistingAppend(first, IndexCandidates, present);
  }

  /** For `/` the fallback search repeats the first one: both name the same
      four `index.html` files. */
  lemma RootFallbackRepeats()
    ensures StaticCandidates(RequestedPath("/")) == IndexCandidates
  {
    assert StaticRoots[0] + "/index.html" == IndexCandidates[0];
    assert StaticRoots[1] + "/index.html" == IndexCandidates[1];
    assert StaticRoots[2] + "/index.html" == IndexCandidates[2];
    assert StaticRoots[3] + "/index.html" == IndexCandidates[3];
  }
}
